=== FILE: README.md ===
# Network backend of the wireless-card OS layer, modelled in Dafny

`src/osdep/network.c` drives a remote wireless card over one TCP connection.
Every message on the wire is a header (message type, payload length) followed
by the payload. The client sends commands and waits for a `NET_RC` reply. While
it waits, the server may push `NET_PACKET` data frames at any time. Those frames
go into an out-of-band queue, which `net_read` drains before it reads the
network again. The queue's slots are recycled through a free list, and a
counter bounds how many slots can ever be allocated.

The model is purely functional:

- `Transport` models the socket's receive side as a sequence of `read` results
  (`Chunk` of bytes, an empty chunk for a read returning 0, `Error` for -1),
  together with `net_read_exact`.
- `Framing` holds the header layout, `net_send` (writability, `malloc` and the
  count accepted by `send` are parameters) and `net_get`.
- `FrameQueue` holds the live queue and the free list as sequences, plus the
  `pn_queue_len` counter. `malloc` in `queue_get_slot` is an oracle
  `alloc(k)`, where `k` is the counter's value at the time of the call.
- `Demux` holds `net_get_nopacket`, `net_cmd` and `net_read`, working on a
  connection value (queue, pending input, bytes written).
- `Device` holds `net_get_mac`, `net_write` and the channel, rate and monitor
  commands.
- `Address` holds `get_ip_port`, with `inet_aton` and `atoi` as parameters.

Each `assert` that input can make fail becomes an `Abort` outcome. The one exception is the capacity assertion of `net_get`: the model uses the unsigned check from "## Findings", so it also aborts on a declared length of 2^31 or more, which the source lets through. An operation
that would still be waiting when the modelled input runs out is `Pending`.

Constants:

- `network.h`, `osdep.h` and the struct layouts are not part of this model.
- The header is a 4-byte type field in host byte order, followed by a 4-byte
  big-endian length, with no padding.
- The host is little-endian.
- The message codes are `NET_RC` = 1 to `NET_SET_RATE` = 10.
- `sizeof(struct rx_info)` = 32 and `sizeof(struct tx_info)` = 4.
- `QUEUE_MAX` = 666, and every buffer is 2048 bytes, as in the source.

Four behaviours of the code, modelled as written:

- The pool admits `QUEUE_MAX + 1` slots (`PoolHoldsOneExtra`).
- Length and reply-shape violations abort the process.
- A read error or a closed socket during an RPC makes `net_get_nopacket` keep
  reading forever, so the call never returns (`CmdOnClosedSocket`).
- A `NET_RC` message met by `net_read` is returned as that call's return value.

## Model

| member | source | states |
|---|---|---|
| Bytes.FromBigEndian | src/osdep/network.c:119 | the value `ntohl` reads from the length bytes is below 256^n |
| Bytes.BigEndian | src/osdep/network.c:61 | the `htonl` encoding has the given width and decodes back to the value |
| Bytes.BigEndianOfValue | src/osdep/network.c:238 | encoding a decoded network-order value gives back the same bytes (both directions of the bijection) |
| Bytes.LittleEndian | src/osdep/network.c:60 | the host-order store of the type field decodes back to the value |
| Bytes.FromLittleEndian | src/osdep/network.c:131 | the host-order type field read back is below 256^n |
| Bytes.Int32 | src/osdep/network.c:238 | a `uint32_t` returned as `int` lies in the 32-bit range and is congruent to the unsigned value |
| Bytes.Uint32 | src/osdep/network.c:339 | `htonl(chan)` takes the `int` modulo 2^32 |
| Bytes.Int32OfUint32 | src/osdep/network.c:60 | a type or argument in the `int` range survives the unsigned round trip |
| Bytes.Uint32OfInt32 | src/osdep/network.c:238 | the reverse conversion is the identity on 32-bit values |
| Bytes.Zeros | src/osdep/network.c:328 | the default tx_info is all zero bytes of the given length |
| Transport.ReadExact | src/osdep/network.c:83-107 | a successful exact read returns exactly n bytes and shrinks the stream; a failing read also consumes input |
| Transport.ReadExactLoop | src/osdep/network.c:90-106 | the while loop of `net_read_exact` computes the same outcome as the recursive definition |
| Transport.ReadExactSpec | src/osdep/network.c:90-106 | success iff n bytes arrive before the first failing read, returning exactly those and leaving the rest; otherwise -1 at the first failing read, or waiting; independent of how the bytes were split into reads |
| Framing.HostOrder | src/osdep/network.c:60 | the type field is stored unswapped, and it decodes back to the value |
| Framing.FromHostOrder | src/osdep/network.c:131 | the stored type field is a 32-bit value |
| Framing.Header | src/osdep/network.c:59-61 | the header has the fixed size, and decoding it gives back the type (as a C int) and the length |
| Framing.HeaderFields | src/osdep/network.c:119-131 | the decoded `nh_type` is a C `int` and the decoded `nh_len` a 32-bit unsigned value |
| Framing.Encode | src/osdep/network.c:63-65 | the frame is exactly header size plus the payload length |
| Framing.TypeNotByteSwapped | src/osdep/network.c:60-61 | on a little-endian host the type goes out least significant byte first while the length is big-endian |
| Framing.Send | src/osdep/network.c:39-81 | returns 0 iff the buffer was allocated, the socket was writable and one `send` took the whole frame, else -1; on 0 the wire carries exactly the frame; it never carries more than a prefix of it |
| Framing.Get | src/osdep/network.c:109-132 | a returned message's payload never exceeds the capacity; the stream always shrinks; the only abort is the capacity assertion |
| Framing.GetSpec | src/osdep/network.c:114-131 | complete behaviour over the delivered bytes: short header or short payload gives -1 (or waits); a declared length above the capacity aborts; otherwise the type and exactly the declared bytes are returned (none for length 0) |
| Framing.GetDecodes | src/osdep/network.c:109-132 | framing round trip: decoding the frame of a message gives that message when it fits, and aborts otherwise |
| Framing.SendThenGet | src/osdep/network.c:59-72 | what a successful `net_send` puts on the wire is decoded by `net_get` into the same type and payload |
| Framing.Code | src/osdep/network.c:114-131 | `net_get` returns -1 exactly when a read failed or the message's own type is -1, and otherwise the message type |
| Framing.AcceptsLengthAsWritten | src/osdep/network.c:119-123 | the source's signed test accepts exactly the declared lengths within the capacity and, wrongly, every one of 2^31 or more |
| Framing.SignedLengthPassesCheck | src/osdep/network.c:119-123 | every declared length of 2^31 or more passes the source's test, though it exceeds any capacity below 2^31 |
| FrameQueue.EmptyIsValid | src/osdep/network.c:501-503 | the state after `net_open` (both lists empty; the counter zero because `wi_alloc`, not part of this model, returns zeroed private state) satisfies the pool invariant |
| FrameQueue.GetSlot | src/osdep/network.c:165-178 | a free slot is reused before anything is allocated; otherwise the counter always increments, and a slot comes only if its old value is at most QUEUE_MAX and `malloc` succeeds; the pool bound is kept |
| FrameQueue.Enque | src/osdep/network.c:180-192 | with a slot, the frame is appended at the tail, or the process aborts if the frame is larger than a slot; without a slot, both lists stay the same and only the counter moves; the invariant is preserved |
| FrameQueue.QueueGet | src/osdep/network.c:241-256 | an empty queue returns 0 and leaves the state unchanged; otherwise the head is returned with its length and moved to the tail of the free list, or the process aborts if it is larger than the buffer; the invariant is preserved |
| FrameQueue.EnqueueAll | src/osdep/network.c:180-192 | successive `net_enque` calls only append, never more than one frame per call, and keep the invariant |
| FrameQueue.EnqueueAllAppends | src/osdep/network.c:140-148 | frames that find slots are appended in arrival order |
| FrameQueue.FreeSlotsPreventDrops | src/osdep/network.c:167-171 | a free list at least as long as the burst drops nothing |
| FrameQueue.Drain | src/osdep/network.c:241-256 | successive `queue_get` calls until the queue is empty hand out one frame per live entry, the head first |
| FrameQueue.DrainIsLive | src/osdep/network.c:241-256 | successive `queue_get` calls hand out the live frames oldest first |
| FrameQueue.FifoOrder | src/osdep/network.c:140-148 | frames enqueued without drops come out in enqueue order, after those already waiting |
| FrameQueue.FillWithoutFree | src/osdep/network.c:174-177 | with no free slots and every `malloc` succeeding, exactly the first QUEUE_MAX + 1 - (live count) further frames are kept |
| FrameQueue.PoolHoldsOneExtra | src/osdep/network.c:174 | from the fresh state, n enqueues keep min(n, QUEUE_MAX + 1) frames, so QUEUE_MAX + 1 slots exist |
| Demux.GetNoPacket | src/osdep/network.c:194-216 | a returned message has a positive non-packet type and fits the caller's buffer; the queue invariant is kept; the only aborts are the two length assertions |
| Demux.DemuxPasses | src/osdep/network.c:204-208 | a data frame is enqueued, and a message of type at most 0 is skipped, without leaving the loop |
| Demux.DemuxStops | src/osdep/network.c:204-215 | a positive non-packet message ends the loop and is returned, or the process aborts if it exceeds the caller's buffer |
| Demux.ErrorSkipped | src/osdep/network.c:200-208 | a read that fails (`net_get` returning -1 at line 116 or 128) is passed over: the loop reads on, with the same queue, as if the failing event had not been there |
| Demux.DemuxOver | src/osdep/network.c:200-215 | the induction over interim messages that `DemuxSpec` states |
| Demux.DemuxSpec | src/osdep/network.c:200-215 | for a stream of interim messages followed by a reply, the reply is returned, exactly the interim data frames are enqueued in arrival order, and the bytes after the reply are left unread |
| Demux.FailuresNeverReturn | src/osdep/network.c:200-209 | when every read fails, the loop never returns, so the `-1` test in `net_cmd` is dead |
| Demux.Cmd | src/osdep/network.c:218-239 | a failed send returns -1 and leaves queue and input alone; otherwise the command frame was written, and the queue invariant is kept |
| Demux.CmdReply | src/osdep/network.c:218-239 | RPC round trip: after the command is written, the data frames before a 4-byte `NET_RC` reply are queued in order, and the reply's big-endian value is returned as an int |
| Demux.CmdRejectsBadReply | src/osdep/network.c:211-236 | a reply longer than 4 bytes aborts whatever its type; otherwise a reply of another type, or a `NET_RC` reply of fewer than 4 bytes, aborts the call |
| Demux.CmdOnClosedSocket | src/osdep/network.c:224-234 | an RPC on a closed or broken socket does not return -1; it never returns |
| Demux.ReturnCode | src/osdep/network.c:258-291 | the `int` `net_read` returns is -1 exactly for a failed read or a `NET_RC` status of -1, and non-negative exactly for a frame or a non-negative status, so a caller cannot tell these apart |
| Demux.Overlay | src/osdep/network.c:212 | the caller's buffer holds the copied payload as its prefix |
| Demux.StatusOf | src/osdep/network.c:277 | for a reply of 4 or more bytes, the status is the big-endian value of its first four bytes |
| Demux.SplitFrame | src/osdep/network.c:281-290 | aborts iff the payload is no longer than rx_info; otherwise it returns rx_info and min(payload - rx_info, len) link-layer bytes that follow it |
| Demux.ReadNetwork | src/osdep/network.c:270-279 | the network branch leaves queue and output alone, consumes input, and never returns more than `len` frame bytes |
| Demux.Read | src/osdep/network.c:258-291 | drain before read: a non-empty queued frame is served (or aborts as too short) without touching the network, and the queue advances; the invariant is kept; at most `len` bytes are returned |
| Demux.ReadGoesToNetwork | src/osdep/network.c:267-272 | with an empty queue `net_read` is one network read; a zero-length queued frame is consumed and followed by a network read |
| Demux.ReadNetworkSpec | src/osdep/network.c:270-290 | for one delivered message: type -1 gives -1, `NET_RC` its status, `NET_PACKET` its split frame or a short-frame abort, and any other type aborts |
| Demux.ReadNetworkFails | src/osdep/network.c:270-275 | a network read that fails before a whole header arrived makes `net_read` return -1, with the input consumed up to the failing read |
| Demux.InterleavedCall | src/osdep/network.c:218-291 | frames A and B arriving before a reply are kept; the call returns the reply, and the next two reads return A and then B without reading the network, the first returning min(|A| - rx_info, len) |
| Device.GetMac | src/osdep/network.c:293-314 | a failed send returns -1 untouched; a successful one writes `NET_GET_MAC`; a returned address has 6 bytes; the queue invariant is kept |
| Device.MacReturnCode | src/osdep/network.c:293-314 | the `int` `net_get_mac` returns is -1 exactly for a failed send or a `NET_RC` status of -1, and 0 exactly for an address or a `NET_RC` status of 0 |
| Device.GetMacStatus | src/osdep/network.c:303-307 | a 4-byte `NET_RC` reply to `NET_GET_MAC` is returned as its big-endian status, after the data frames before it were queued in order |
| Device.GetMacZeroStatus | src/osdep/network.c:306-307 | after any data frames, a `NET_RC` 0 reply makes `net_get_mac` return 0, as on success, although no address was delivered |
| Device.GetMacReply | src/osdep/network.c:303-311 | a 6-byte `NET_MAC` reply after queued frames gives that address; a shorter one aborts |
| Device.GetMacRejects | src/osdep/network.c:303-311 | after queued frames, a reply longer than 6 bytes aborts on the length assertion of `net_get_nopacket` (line 211), a reply of a type other than `NET_RC` and `NET_MAC` aborts on the type assertion, and a `NET_MAC` reply of the wrong size aborts |
| Device.GetMacScenario | src/osdep/network.c:303-313 | the reply 02:00:00:00:00:01 gives that address with return value 0, and a 5-byte reply aborts |
| Device.TxHeader | src/osdep/network.c:325-328 | the tx_info part is exactly the caller's `tx_info` when one is given, and otherwise all zeros of the struct's size |
| Device.Write | src/osdep/network.c:316-335 | writes `NET_WRITE` carrying tx_info followed by the frame, and returns -1 when the send fails |
| Device.WriteRequestDecodes | src/osdep/network.c:324-334 | the server decodes the written message into the tx_info part and the unchanged frame |
| Device.Arg | src/osdep/network.c:339 | the 4-byte argument decodes back to the int value |
| Device.SetChannel | src/osdep/network.c:337-342 | writes `NET_SET_CHAN` with the big-endian channel; -1 when the send fails |
| Device.GetChannel | src/osdep/network.c:344-349 | writes an empty `NET_GET_CHAN`; -1 when the send fails |
| Device.SetRate | src/osdep/network.c:351-356 | writes `NET_SET_RATE` with the big-endian rate; -1 when the send fails |
| Device.GetRate | src/osdep/network.c:358-363 | writes an empty `NET_GET_RATE`; -1 when the send fails |
| Device.GetMonitor | src/osdep/network.c:365-368 | writes an empty `NET_GET_MONITOR`; -1 when the send fails |
| Device.SetChannelScenario | src/osdep/network.c:337-342 | setting channel 6 against a server answering `NET_RC` 0 returns 0, and the server decodes the value 6 |
| Address.FirstColon | src/osdep/network.c:397 | `strchr` stops at the first colon, or at the end when there is none |
| Address.GetIpPort | src/osdep/network.c:386-413 | -1 without a colon or when `strdup` fails; a host before the first colon that `inet_aton` rejects gives -1, and one it accepts that is longer than 15 characters aborts; on success the address part has no colon, is an address of at most 15 characters, precedes the first colon, and the port is `atoi` of the rest |
| Address.GetIpPortSplits | src/osdep/network.c:397-408 | parsing `host:port` gives back the host and `atoi` of the port text |

## Left out

- Sockets, `select` timeouts, `read`, `send`, `connect` and `close` are not modelled as I/O. Reads are the `Transport` event sequence, and each send is a `SendEnv` parameter.
- `do_net_open`, `handshake` (a no-op) and every `printf` are connection plumbing and logging.
- `net_open`, `net_fd`, `net_close` and `do_net_free` only wire function pointers into `struct wif` and free memory.
- `malloc` and `free` are not modelled, and neither is the pointer surgery of the circular lists. The lists are sequences. A failed `malloc` in `queue_get_slot` is the `alloc` oracle, and one in `net_send` or `strdup` is a boolean parameter.
- `inet_aton` and `atoi` are parameters of `Address.GetIpPort`, because their bodies are libc.
- The exact layouts of `net_hdr`, `rx_info` and `tx_info` are not modelled. They live in headers that are not part of this model, so their sizes are constants.
- Host byte order is fixed as little-endian.
- FrameQueue.Valid: the counter is an unbounded `nat`. In the source it is an `int` that keeps growing on every refused allocation. Signed overflow after 2^31 refusals is undefined behaviour and is not modelled.
- Device.Write: requires that tx_info plus the frame fit the 2048-byte stack buffer. The source copies `len` bytes without a check, and a longer frame is a buffer overflow with no defined result.
- Demux.Cmd: the `cmd == -1` test is not a branch of the model. `GetNoPacket` never returns a non-positive type, as its own `ensures IsReply(...)` states; `Demux.ErrorSkipped` and `Demux.FailuresNeverReturn` show that a failing read keeps the loop reading instead. The same holds for the test in `net_get_mac`.
- Demux.Read: always returns the rx_info bytes. The source copies them only when `ri` is non-NULL, which does not change the return value.
- Demux.StatusOf: for a `NET_RC` reply shorter than 4 bytes, the source reads leftover buffer bytes. These are modelled as the `stale` parameter, not as defined values.
- Framing.Get: the value left in `*len` when the payload read fails is not modelled. No caller uses it.
- Framing.Get: applies the unsigned capacity check named under "## Findings", so a declared length of 2^31 or more aborts. Every layer above inherits this: `GetNoPacket`, `Cmd`, `Read` and `GetMac`. The source passes its assertion there and calls `net_read_exact` with a negative length, which is undefined behaviour.
- `Pending` does not distinguish a `read` that blocks forever from the endless loop of `net_get_nopacket` on a closed socket. Both mean the call does not return within the modelled input.

## Findings

| source | as written | input that shows it | evidently intended | confidence | as-written member | corrected member |
|---|---|---|---|---|---|---|
| src/osdep/network.c:119-126 | `plen = ntohl(nh.nh_len)` is stored in a signed `int`, so the check `plen <= *len` is a signed comparison | a header declaring length 0x80000000 while `*len` is 2048: `plen` becomes -2^31, the assertion passes, and `*len` becomes negative before `net_read_exact` | reject every declared length above the capacity, compared as unsigned values | not executed; assumes a 32-bit two's-complement `int` | Framing.SignedLengthPassesCheck | Framing.Get |

=== FILE: address.dfy ===
/** `get_ip_port`: splitting an "address:port" interface name. */
module Address {
  import opened Faults

  /** The longest dotted IPv4 address, "255.255.255.255". */
  const MaxHostLength: nat := 15

  /** Where `strchr(s, ':')` stops: the first colon, or |s| when there is none. */
  function FirstColon(s: string): (i: nat)
    ensures i <= |s|
    ensures i < |s| ==> s[i] == ':'
    ensures forall j :: 0 <= j < i ==> s[j] != ':'
  {
    if |s| == 0 || s[0] == ':' then 0 else 1 + FirstColon(s[1..])
  }

  /** The port `get_ip_port` returns, and the address it copies out (only
      written on success). */
  datatype Endpoint = Endpoint(port: int, ip: Option<string>)

  /** `get_ip_port`: -1 when `strdup` fails (`duplicated` false), when there
      is no colon, or when the part before the first colon is not an address
      (`isAddress` stands for `inet_aton`); an address longer than 15
      characters aborts; otherwise the address and `atoi` of the rest.
      `iface` is a C string, so it holds no NUL character. */
  function GetIpPort(iface: string, duplicated: bool, isAddress: string -> bool,
                     atoi: string -> int): (r: Outcome<Endpoint>)
    requires '\0' !in iface
    ensures r.Abort? ==> r.fault == HostTooLong
    ensures !duplicated || ':' !in iface ==> r == Done(Endpoint(-1, None))
    ensures r.Done? && r.value.ip.Some? ==>
      var host := r.value.ip.value;
      && ':' !in host && |host| <= MaxHostLength && isAddress(host)
      && |host| < |iface| && iface[..|host| + 1] == host + [':']
      && r.value.port == atoi(iface[|host| + 1..])
    ensures r.Done? && r.value.ip.None? ==> r.value.port == -1
    ensures duplicated && FirstColon(iface) < |iface| ==>
      var host := iface[..FirstColon(iface)];
      && (!isAddress(host) ==> r == Done(Endpoint(-1, None)))
      && (isAddress(host) && |host| > MaxHostLength ==> r == Abort(HostTooLong))
  {
    if !duplicated then Done(Endpoint(-1, None))
    else
      var i := FirstColon(iface);
      if i == |iface| then Done(Endpoint(-1, None))
      else
        var host := iface[..i];
        if !isAddress(host) then Done(Endpoint(-1, None))
        else if |host| > MaxHostLength then Abort(HostTooLong)
        else Done(Endpoint(atoi(iface[i + 1..]), Some(host)))
  }

  /** Parsing "host:port" gives back the host and `atoi` of the port text. */
  lemma GetIpPortSplits(host: string, port: string, isAddress: string -> bool,
                        atoi: string -> int)
    requires ':' !in host && isAddress(host) && |host| <= MaxHostLength
    requires '\0' !in host && '\0' !in port
    ensures GetIpPort(host + [':'] + port, true, isAddress, atoi)
         == Done(Endpoint(atoi(port), Some(host)))
  {
    var s := host + [':'] + port;
    var i := FirstColon(s);
    assert s[|host|] == ':';
    assert forall j :: 0 <= j < |host| ==> s[j] == host[j];
    assert i == |host|;
    assert s[..i] == host;
    assert s[i + 1..] == port;
  }
}

=== FILE: bytes.dfy ===
/** Bytes, fixed-width unsigned encodings and the C conversions between
    `int` and `uint32_t` that the client relies on. */
module Bytes {

  newtype byte = x: int | 0 <= x < 256

  const Two31: int := 0x8000_0000
  const Two32: int := 0x1_0000_0000

  function Pow256(n: nat): (r: nat)
    ensures r > 0
  {
    if n == 0 then 1 else 256 * Pow256(n - 1)
  }

  lemma Pow256Four()
    ensures Pow256(4) == Two32
  {
  }

  /** The value of `b` read most significant byte first (network order). */
  function FromBigEndian(b: seq<byte>): (v: nat)
    ensures v < Pow256(|b|)
  {
    if |b| == 0 then 0
    else FromBigEndian(b[..|b| - 1]) * 256 + b[|b| - 1] as int
  }

  /** The `n`-byte network-order encoding of `v` (what `htonl` stores for n = 4). */
  function BigEndian(v: nat, n: nat): (b: seq<byte>)
    requires v < Pow256(n)
    ensures |b| == n
    ensures FromBigEndian(b) == v
  {
    if n == 0 then []
    else
      var high := BigEndian(v / 256, n - 1);
      var b := high + [(v % 256) as byte];
      assert b[..n - 1] == high;
      b
  }

  /** Encoding what was decoded gives back the same bytes. */
  lemma {:induction false} BigEndianOfValue(b: seq<byte>)
    ensures BigEndian(FromBigEndian(b), |b|) == b
  {
    if |b| > 0 {
      var n := |b|;
      var init := b[..n - 1];
      BigEndianOfValue(init);
      var v := FromBigEndian(b);
      assert v == FromBigEndian(init) * 256 + b[n - 1] as int;
      assert v / 256 == FromBigEndian(init);
      assert (v % 256) as byte == b[n - 1];
      assert b == init + [b[n - 1]];
    }
  }

  /** The value of `b` read least significant byte first. */
  function FromLittleEndian(b: seq<byte>): (v: nat)
    ensures v < Pow256(|b|)
  {
    if |b| == 0 then 0
    else b[0] as int + 256 * FromLittleEndian(b[1..])
  }

  /** The `n`-byte little-endian encoding of `v`. */
  function LittleEndian(v: nat, n: nat): (b: seq<byte>)
    requires v < Pow256(n)
    ensures |b| == n
    ensures FromLittleEndian(b) == v
  {
    if n == 0 then []
    else
      var high := LittleEndian(v / 256, n - 1);
      var b := [(v % 256) as byte] + high;
      assert b[1..] == high;
      b
  }

  /** `uint32_t` converted to a 32-bit two's-complement `int`. */
  function Int32(u: nat): (x: int)
    requires u < Two32
    ensures -Two31 <= x < Two31
    ensures (u - x) % Two32 == 0
  {
    if u < Two31 then u else u - Two32
  }

  /** An `int` converted to `uint32_t` (reduction modulo 2^32). */
  function Uint32(x: int): (u: nat)
    ensures u < Two32
    ensures (u - x) % Two32 == 0
  {
    x % Two32
  }

  predicate InInt32(x: int)
  {
    -Two31 <= x < Two31
  }

  /** The two conversions are inverse on the 32-bit range. */
  lemma Int32OfUint32(x: int)
    ensures InInt32(x) ==> Int32(Uint32(x)) == x
  {
  }

  lemma Uint32OfInt32(u: nat)
    requires u < Two32
    ensures Uint32(Int32(u)) == u
  {
  }

  function Zeros(n: nat): (z: seq<byte>)
    ensures |z| == n
    ensures forall i :: 0 <= i < n ==> z[i] == 0
  {
    seq(n, _ => 0 as byte)
  }
}

=== FILE: demux.dfy ===
/** Demultiplexing of the one incoming stream into RPC replies and data
    frames: `net_get_nopacket`, `net_cmd` and `net_read`. */
module Demux {
  import opened Bytes
  import opened Faults
  import opened Transport
  import opened Framing
  import opened FrameQueue

  /** One connection: the queue state of `struct priv_net`, what the socket
      has still to deliver, and every byte written to it so far. */
  datatype Conn = Conn(queue: Queue, input: Stream, output: seq<byte>)

  /** A message `net_get_nopacket` stops at: positive type, not a data frame. */
  predicate IsReply(m: Message)
  {
    m.kind > 0 && m.kind != NetPacket
  }

  /** A message `net_get_nopacket` reads past: a data frame, or a type <= 0. */
  predicate Interim(m: Message)
  {
    Sendable(m) && |m.payload| <= BufSize && !IsReply(m)
  }

  /** Every message of `ms` is an interim one. */
  predicate AllInterim(ms: seq<Message>)
  {
    forall i :: 0 <= i < |ms| ==> Interim(ms[i])
  }

  /** The frames of `ms`, back to back. */
  function Encoding(ms: seq<Message>): seq<byte>
    requires forall i :: 0 <= i < |ms| ==> Sendable(ms[i])
  {
    if |ms| == 0 then []
    else
      assert Sendable(ms[0]);
      Encode(ms[0]) + Encoding(ms[1..])
  }

  /** The payloads of the data frames among `ms`, in arrival order. */
  function Packets(ms: seq<Message>): (ps: seq<seq<byte>>)
    requires forall i :: 0 <= i < |ms| ==> |ms[i].payload| <= BufSize
    ensures AllFit(ps)
  {
    if |ms| == 0 then []
    else if ms[0].kind == NetPacket then [ms[0].payload] + Packets(ms[1..])
    else Packets(ms[1..])
  }

  /** `net_get_nopacket` with `*len == cap`: read messages into a 2048-byte
      buffer until one has a positive type other than NET_PACKET; data frames
      met on the way are enqueued, and -1 results and types <= 0 are passed
      over without leaving the loop. The message found must fit `cap`. */
  function GetNoPacket(q: Queue, s: Stream, cap: nat, alloc: nat -> bool)
    : (r: Outcome<(Message, Queue, Stream)>)
    ensures r.Done? ==> IsReply(r.value.0) && |r.value.0.payload| <= cap
    ensures r.Done? && Valid(q) ==> Valid(r.value.1)
    ensures r.Done? ==> Size(r.value.2) < Size(s)
    ensures r.Abort? ==> r.fault == LengthExceedsCapacity || r.fault == ReplyTooLarge
    decreases Size(s)
  {
    match Get(s, BufSize)
    case Pending => Pending
    case Abort(f) => Abort(f)
    case Done((fetch, rest)) =>
      var c := Code(fetch);
      if c != NetPacket && c > 0 then
        if |fetch.msg.payload| > cap then Abort(ReplyTooLarge)
        else Done((fetch.msg, q, rest))
      else if c > 0 then
        // The frame came through a 2048-byte buffer, so the slot-size
        // assertion of net_enque holds here.
        GetNoPacket(Enque(q, fetch.msg.payload, alloc).value, rest, cap, alloc)
      else GetNoPacket(q, rest, cap, alloc)
  }

  /** The queue after `net_get_nopacket` passes over `m`. */
  function Passed(q: Queue, m: Message, alloc: nat -> bool): Queue
    requires |m.payload| <= BufSize
  {
    if m.kind == NetPacket then Enque(q, m.payload, alloc).value else q
  }

  /** Passing over the interim messages one at a time enqueues their data
      frames. */
  lemma PassedPackets(q: Queue, ms: seq<Message>, alloc: nat -> bool)
    requires |ms| > 0 && AllInterim(ms)
    ensures EnqueueAll(q, Packets(ms), alloc)
         == EnqueueAll(Passed(q, ms[0], alloc), Packets(ms[1..]), alloc)
  {
    assert Interim(ms[0]);
    if ms[0].kind == NetPacket {
      var ps := Packets(ms[1..]);
      assert Packets(ms) == [ms[0].payload] + ps;
      assert ([ms[0].payload] + ps)[1..] == ps;
    }
  }

  /** One interim message: `net_get_nopacket` reads it and carries on. */
  lemma DemuxPasses(q: Queue, s: Stream, cap: nat, alloc: nat -> bool, m: Message, after: seq<byte>)
    requires Interim(m)
    requires Delivered(s) == Encode(m) + after
    ensures var g := Get(s, BufSize);
      g.Done? && Delivered(g.value.1) == after
      && GetNoPacket(q, s, cap, alloc) == GetNoPacket(Passed(q, m, alloc), g.value.1, cap, alloc)
  {
    GetDecodes(s, m, BufSize, after);
  }

  /** The reply: `net_get_nopacket` returns it, or aborts if it does not fit. */
  lemma DemuxStops(q: Queue, s: Stream, cap: nat, alloc: nat -> bool, m: Message, more: seq<byte>)
    requires Sendable(m) && IsReply(m) && |m.payload| <= BufSize
    requires Delivered(s) == Encode(m) + more
    ensures var r := GetNoPacket(q, s, cap, alloc);
      if |m.payload| <= cap then
        r.Done? && r.value.0 == m && r.value.1 == q && Delivered(r.value.2) == more
      else r == Abort(ReplyTooLarge)
  {
    GetDecodes(s, m, BufSize, more);
  }

  /** A failed read is passed over: `net_get_nopacket` reads on as if the
      failing event had not been there. */
  lemma ErrorSkipped(q: Queue, e: Event, s: Stream, cap: nat, alloc: nat -> bool)
    requires Fails(e)
    ensures GetNoPacket(q, [e] + s, cap, alloc) == GetNoPacket(q, s, cap, alloc)
  {
    var t := [e] + s;
    assert t[0] == e && t[1..] == s;
    ReadExactSpec(t, HeaderSize);
    assert Get(t, BufSize) == Done((FetchFailed, s));
  }

  /** Splits the first frame off an encoding, for the induction below. */
  lemma EncodingCons(ms: seq<Message>, tail: seq<byte>) returns (after: seq<byte>)
    requires |ms| > 0 && AllInterim(ms)
    ensures Interim(ms[0]) && AllInterim(ms[1..])
    ensures after == Encoding(ms[1..]) + tail
    ensures Encoding(ms) + tail == Encode(ms[0]) + after
  {
    assert Interim(ms[0]);
    forall i | 0 <= i < |ms| - 1
      ensures Interim(ms[1..][i])
    {
      assert ms[1..][i] == ms[i + 1];
    }
    after := Encoding(ms[1..]) + tail;
  }

  /** The induction behind `DemuxSpec`, with the bytes after `ms` kept whole. */
  lemma {:induction false} DemuxOver(q: Queue, s: Stream, cap: nat, alloc: nat -> bool,
                                     ms: seq<Message>, m: Message, more: seq<byte>, tail: seq<byte>)
    requires AllInterim(ms)
    requires Sendable(m) && IsReply(m) && |m.payload| <= BufSize
    requires tail == Encode(m) + more
    requires Delivered(s) == Encoding(ms) + tail
    ensures |m.payload| > cap ==> GetNoPacket(q, s, cap, alloc) == Abort(ReplyTooLarge)
    ensures |m.payload| <= cap ==>
      GetNoPacket(q, s, cap, alloc).Done?
      && GetNoPacket(q, s, cap, alloc).value.0 == m
      && GetNoPacket(q, s, cap, alloc).value.1 == EnqueueAll(q, Packets(ms), alloc)
      && Delivered(GetNoPacket(q, s, cap, alloc).value.2) == more
    decreases |ms|
  {
    if |ms| == 0 {
      assert Delivered(s) == tail;
      DemuxStops(q, s, cap, alloc, m, more);
    } else {
      var after := EncodingCons(ms, tail);
      DemuxPasses(q, s, cap, alloc, ms[0], after);
      var rest := Get(s, BufSize).value.1;
      DemuxOver(Passed(q, ms[0], alloc), rest, cap, alloc, ms[1..], m, more, tail);
      PassedPackets(q, ms, alloc);
    }
  }

  /** Demultiplexing: given a stream delivering interim messages `ms`, then a
      reply `m`, then `more`, `net_get_nopacket` returns `m` after enqueueing
      exactly the data frames of `ms` in arrival order, and leaves `more`
      unread; it aborts instead when `m` does not fit `cap`. */
  lemma DemuxSpec(q: Queue, s: Stream, cap: nat, alloc: nat -> bool,
                  ms: seq<Message>, m: Message, more: seq<byte>)
    requires AllInterim(ms)
    requires Sendable(m) && IsReply(m) && |m.payload| <= BufSize
    requires Delivered(s) == Encoding(ms) + Encode(m) + more
    ensures var r := GetNoPacket(q, s, cap, alloc);
      if |m.payload| <= cap then
        r.Done? && r.value.0 == m && r.value.1 == EnqueueAll(q, Packets(ms), alloc)
        && Delivered(r.value.2) == more
      else r == Abort(ReplyTooLarge)
  {
    var tail := Encode(m) + more;
    assert Encoding(ms) + Encode(m) + more == Encoding(ms) + tail;
    DemuxOver(q, s, cap, alloc, ms, m, more, tail);
  }

  /** Every read of `s` fails. */
  predicate AllFail(s: Stream)
  {
    forall i :: 0 <= i < |s| ==> Fails(s[i])
  }

  /** Errors never end the wait: on a socket whose reads all fail (closed or
      broken), `net_get_nopacket` keeps reading and never returns. */
  lemma {:induction false} FailuresNeverReturn(q: Queue, s: Stream, cap: nat, alloc: nat -> bool)
    requires AllFail(s)
    ensures GetNoPacket(q, s, cap, alloc) == Pending
    decreases |s|
  {
    ReadExactSpec(s, HeaderSize);
    if |s| > 0 {
      assert AfterFailure(s) == Some(s[1..]);
      assert Get(s, BufSize) == Done((FetchFailed, s[1..]));
      FailuresNeverReturn(q, s[1..], cap, alloc);
    }
  }

  /** `net_cmd`: send the command; if that fails return -1. Otherwise wait for
      the reply with a 4-byte buffer: it must be NET_RC with exactly 4 bytes,
      whose big-endian value is returned as an `int`. The `cmd == -1` test of
      the source is left out: `GetNoPacket` only returns positive types. */
  function Cmd(conn: Conn, command: int, arg: seq<byte>, env: SendEnv, alloc: nat -> bool)
    : (r: Outcome<(int, Conn)>)
    requires |arg| < Two31
    ensures !SendSucceeds(Message(command, arg), env) ==>
      r.Done? && r.value.0 == -1
      && r.value.1.queue == conn.queue && r.value.1.input == conn.input
    ensures SendSucceeds(Message(command, arg), env) && r.Done? ==>
      r.value.1.output == conn.output + Encode(Message(command, arg))
    ensures Valid(conn.queue) && r.Done? ==> Valid(r.value.1.queue)
  {
    var sent := Send(Message(command, arg), env);
    var out := conn.output + sent.wire;
    if sent.rc != 0 then Done((-1, conn.(output := out)))
    else
      match GetNoPacket(conn.queue, conn.input, 4, alloc)
      case Pending => Pending
      case Abort(f) => Abort(f)
      case Done((reply, q, rest)) =>
        if reply.kind != NetRc then Abort(UnexpectedType)
        else if |reply.payload| != 4 then Abort(BadReplySize)
        else Done((Int32(FromBigEndian(reply.payload)), Conn(q, rest, out)))
  }

  /** RPC round trip: after a successful send, data frames and ignored
      messages before a 4-byte NET_RC reply carrying `v` are queued in order,
      and the call returns `v` as a C `int`. */
  lemma CmdReply(conn: Conn, command: int, arg: seq<byte>, env: SendEnv, alloc: nat -> bool,
                 ms: seq<Message>, v: nat, more: seq<byte>)
    requires |arg| < Two31 && SendSucceeds(Message(command, arg), env)
    requires v < Two32
    requires AllInterim(ms)
    requires Delivered(conn.input) == Encoding(ms) + Encode(Message(NetRc, BigEndian(v, 4))) + more
    ensures var r := Cmd(conn, command, arg, env, alloc);
      r.Done? && r.value.0 == Int32(v)
      && r.value.1.queue == EnqueueAll(conn.queue, Packets(ms), alloc)
      && r.value.1.output == conn.output + Encode(Message(command, arg))
      && Delivered(r.value.1.input) == more
  {
    Pow256Four();
    DemuxSpec(conn.queue, conn.input, 4, alloc, ms, Message(NetRc, BigEndian(v, 4)), more);
  }

  /** A reply longer than the 4-byte buffer aborts the call whatever its
      type; otherwise a reply of any type but NET_RC aborts, and so does a
      NET_RC reply of fewer than 4 bytes. */
  lemma CmdRejectsBadReply(conn: Conn, command: int, arg: seq<byte>, env: SendEnv,
                           alloc: nat -> bool, ms: seq<Message>, m: Message, more: seq<byte>)
    requires |arg| < Two31 && SendSucceeds(Message(command, arg), env)
    requires AllInterim(ms)
    requires Sendable(m) && IsReply(m) && |m.payload| <= BufSize
    requires m.kind != NetRc || |m.payload| != 4
    requires Delivered(conn.input) == Encoding(ms) + Encode(m) + more
    ensures Cmd(conn, command, arg, env, alloc)
         == Abort(if |m.payload| > 4 then ReplyTooLarge
                  else if m.kind != NetRc then UnexpectedType
                  else BadReplySize)
  {
    DemuxSpec(conn.queue, conn.input, 4, alloc, ms, m, more);
  }

  /** An RPC whose reply never comes because the socket is closed does not
      return -1: it does not return at all. */
  lemma CmdOnClosedSocket(conn: Conn, command: int, arg: seq<byte>, env: SendEnv,
                          alloc: nat -> bool)
    requires |arg| < Two31 && SendSucceeds(Message(command, arg), env)
    requires AllFail(conn.input)
    ensures Cmd(conn, command, arg, env, alloc) == Pending
  {
    FailuresNeverReturn(conn.queue, conn.input, 4, alloc);
  }

  // ------------------------------------------------------------ frame reads

  /** `sizeof(struct rx_info)`; osdep.h is not part of this model. */
  const RxInfoSize: nat := 32

  /** What `net_read` hands back: -1, a status from a NET_RC message, or a
      frame's rx_info bytes and link-layer bytes. */
  datatype Received = ReadFailed | Status(value: int) | Frame(info: seq<byte>, data: seq<byte>)

  /** The `int` that `net_read` returns. A caller cannot tell a failed read
      from a NET_RC status of -1, nor a frame from a non-negative status. */
  function ReturnCode(r: Received): (c: int)
    ensures c == -1 <==> r.ReadFailed? || (r.Status? && r.value == -1)
    ensures c >= 0 <==> r.Frame? || (r.Status? && r.value >= 0)
  {
    match r
    case ReadFailed => -1
    case Status(v) => v
    case Frame(_, data) => |data|
  }

  /** The stack buffer after `l` bytes were copied into it: the payload, then
      whatever the buffer held before. */
  function Overlay(payload: seq<byte>, stale: seq<byte>): (b: seq<byte>)
    requires |payload| <= |stale|
    ensures |b| == |stale| && b[..|payload|] == payload
  {
    payload + stale[|payload|..]
  }

  /** The NET_RC value `net_read` and `net_get_mac` read from the first four
      bytes of their buffer, whatever the reply's length was. */
  function StatusOf(payload: seq<byte>, stale: seq<byte>): (v: int)
    requires |payload| <= |stale| && |stale| >= 4
    ensures |payload| >= 4 ==> v == Int32(FromBigEndian(payload[..4]))
  {
    Pow256Four();
    var b := Overlay(payload, stale);
    assert |payload| >= 4 ==> b[..4] == payload[..4];
    Int32(FromBigEndian(b[..4]))
  }

  /** The end of `net_read`: the frame must be longer than its rx_info
      header; at most `len` link-layer bytes after it are returned. */
  function SplitFrame(buf: seq<byte>, len: nat): (r: Outcome<Received>)
    ensures |buf| <= RxInfoSize <==> r == Abort(ShortFrame)
    ensures r.Done? ==>
      && r.value.Frame?
      && r.value.info == buf[..RxInfoSize]
      && r.value.data <= buf[RxInfoSize..]
      && |r.value.data| == Min(|buf| - RxInfoSize, len)
  {
    if |buf| <= RxInfoSize then Abort(ShortFrame)
    else Done(Frame(buf[..RxInfoSize], buf[RxInfoSize..RxInfoSize + Min(|buf| - RxInfoSize, len)]))
  }

  function WithConn(r: Outcome<Received>, conn: Conn): (o: Outcome<(Received, Conn)>)
  {
    match r
    case Done(v) => Done((v, conn))
    case Abort(f) => Abort(f)
    case Pending => Pending
  }

  /** The network branch of `net_read`: read one message with a 2048-byte
      buffer. -1 gives -1, NET_RC gives its status, NET_PACKET gives a frame,
      and any other type aborts. The queue is not touched. */
  function ReadNetwork(conn: Conn, len: nat, stale: seq<byte>): (r: Outcome<(Received, Conn)>)
    requires |stale| == BufSize
    ensures r.Done? ==> r.value.1.queue == conn.queue && r.value.1.output == conn.output
    ensures r.Done? ==> Size(r.value.1.input) < Size(conn.input)
    ensures r.Done? && r.value.0.Frame? ==> |r.value.0.data| <= len
  {
    match Get(conn.input, BufSize)
    case Pending => Pending
    case Abort(f) => Abort(f)
    case Done((fetch, rest)) =>
      var after := conn.(input := rest);
      var c := Code(fetch);
      if c == -1 then Done((ReadFailed, after))
      else if c == NetRc then Done((Status(StatusOf(fetch.msg.payload, stale)), after))
      else if c != NetPacket then Abort(UnexpectedType)
      else WithConn(SplitFrame(fetch.msg.payload, len), after)
  }

  /** `net_read`: serve the head of the queue first; the network is read only
      when `queue_get` returned 0, which happens for an empty queue and also
      for a queued frame of length 0 (which is then lost). */
  function Read(conn: Conn, len: nat, stale: seq<byte>): (r: Outcome<(Received, Conn)>)
    requires |stale| == BufSize
    ensures Valid(conn.queue) && r.Done? ==> Valid(r.value.1.queue)
    ensures r.Done? && r.value.0.Frame? ==> |r.value.0.data| <= len
    ensures Valid(conn.queue) && |conn.queue.live| > 0 && |conn.queue.live[0]| > 0 ==>
      var head := conn.queue.live[0];
      if |head| <= RxInfoSize then r == Abort(ShortFrame)
      else
        r.Done? && r.value.1.input == conn.input
        && r.value.1.queue.live == conn.queue.live[1..]
        && r.value.0 == Frame(head[..RxInfoSize],
                              head[RxInfoSize..RxInfoSize + Min(|head| - RxInfoSize, len)])
  {
    var got := QueueGet(conn.queue, BufSize);
    if got.Abort? then Abort(got.fault)
    else
      var dq := got.value;
      var popped := conn.(queue := dq.queue);
      if dq.len != 0 then WithConn(SplitFrame(dq.data, len), popped)
      else ReadNetwork(popped, len, stale)
  }

  /** Drain before read: with an empty queue `net_read` is exactly one
      network read, and a queued zero-length frame is dropped and followed by
      one too; a non-empty queued frame never touches the network (the
      contract of `Read`). */
  lemma ReadGoesToNetwork(conn: Conn, len: nat, stale: seq<byte>)
    requires |stale| == BufSize
    ensures |conn.queue.live| == 0 ==> Read(conn, len, stale) == ReadNetwork(conn, len, stale)
    ensures |conn.queue.live| > 0 && conn.queue.live[0] == [] ==>
      Read(conn, len, stale)
      == ReadNetwork(conn.(queue := Queue(conn.queue.live[1..], conn.queue.free + [[]],
                                         conn.queue.attempts)), len, stale)
  {
  }

  /** The network branch in terms of the one message the stream delivers. */
  lemma ReadNetworkSpec(conn: Conn, len: nat, stale: seq<byte>, m: Message, more: seq<byte>)
    requires |stale| == BufSize
    requires Sendable(m) && |m.payload| <= BufSize
    requires Delivered(conn.input) == Encode(m) + more
    ensures var r := ReadNetwork(conn, len, stale);
      var p := m.payload;
      if m.kind == -1 then r.Done? && r.value.0 == ReadFailed
      else if m.kind == NetRc then
        r.Done? && r.value.0 == Status(StatusOf(p, stale))
        && (|p| >= 4 ==> r.value.0.value == Int32(FromBigEndian(p[..4])))
      else if m.kind != NetPacket then r == Abort(UnexpectedType)
      else if |p| <= RxInfoSize then r == Abort(ShortFrame)
      else
        r.Done? && Delivered(r.value.1.input) == more
        && r.value.0 == Frame(p[..RxInfoSize], p[RxInfoSize..RxInfoSize + Min(|p| - RxInfoSize, len)])
  {
    GetDecodes(conn.input, m, BufSize, more);
  }

  /** A network read that fails before a whole header arrived makes
      `net_read` return -1, consuming input up to the failing read. */
  lemma ReadNetworkFails(conn: Conn, len: nat, stale: seq<byte>)
    requires |stale| == BufSize
    requires |Delivered(conn.input)| < HeaderSize && AfterFailure(conn.input).Some?
    ensures ReadNetwork(conn, len, stale)
         == Done((ReadFailed, conn.(input := AfterFailure(conn.input).value)))
  {
    GetSpec(conn.input, BufSize);
  }

  /** Interleaving: data frames A and B arriving before the reply to a call
      are kept, the call returns the reply, and the next two reads return A
      and then B without reading the network. */
  lemma InterleavedCall(conn: Conn, command: int, arg: seq<byte>, env: SendEnv,
                        alloc: nat -> bool, a: seq<byte>, b: seq<byte>, v: nat,
                        more: seq<byte>, len: nat, stale: seq<byte>)
    returns (r: Outcome<(int, Conn)>, r1: Outcome<(Received, Conn)>, r2: Outcome<(Received, Conn)>)
    requires |arg| < Two31 && SendSucceeds(Message(command, arg), env)
    requires conn.queue == Empty && alloc(0) && alloc(1)
    requires RxInfoSize < |a| <= BufSize && RxInfoSize < |b| <= BufSize
    requires v < Two32 && |stale| == BufSize
    requires Delivered(conn.input)
          == Encode(Message(NetPacket, a)) + Encode(Message(NetPacket, b))
           + Encode(Message(NetRc, BigEndian(v, 4))) + more
    ensures r == Cmd(conn, command, arg, env, alloc) && r.Done? && r.value.0 == Int32(v)
    ensures r1 == Read(r.value.1, len, stale)
    ensures r1.Done? && r1.value.0 == Frame(a[..RxInfoSize], a[RxInfoSize..RxInfoSize + Min(|a| - RxInfoSize, len)])
    ensures ReturnCode(r1.value.0) == Min(|a| - RxInfoSize, len)
    ensures r2 == Read(r1.value.1, len, stale)
    ensures r2.Done? && r2.value.0 == Frame(b[..RxInfoSize], b[RxInfoSize..RxInfoSize + Min(|b| - RxInfoSize, len)])
    ensures r2.value.1.input == r.value.1.input
  {
    var ms := TwoPackets(a, b);
    CmdReply(conn, command, arg, env, alloc, ms, v, more);
    r := Cmd(conn, command, arg, env, alloc);
    TwoSlots(a, b, alloc);
    assert r.value.1.queue == Queue([a, b], [], 2);
    r1 := Read(r.value.1, len, stale);
    assert r1.value.1.queue.live == [b];
    r2 := Read(r1.value.1, len, stale);
  }

  /** The two data frames of `InterleavedCall` as interim messages. */
  lemma TwoPackets(a: seq<byte>, b: seq<byte>) returns (ms: seq<Message>)
    requires |a| <= BufSize && |b| <= BufSize
    ensures ms == [Message(NetPacket, a), Message(NetPacket, b)]
    ensures AllInterim(ms)
    ensures Encoding(ms) == Encode(Message(NetPacket, a)) + Encode(Message(NetPacket, b))
    ensures Packets(ms) == [a, b]
  {
    ms := [Message(NetPacket, a), Message(NetPacket, b)];
    assert ms[1..] == [Message(NetPacket, b)];
    assert ms[1..][1..] == [];
    assert Encoding(ms[1..]) == Encode(Message(NetPacket, b)) + [];
    assert Packets(ms[1..]) == [b] + [];
    assert Packets(ms) == [a] + [b];
  }

  /** The fresh queue takes two frames when both allocations succeed. */
  lemma TwoSlots(a: seq<byte>, b: seq<byte>, alloc: nat -> bool)
    requires |a| <= SlotSize && |b| <= SlotSize && alloc(0) && alloc(1)
    ensures EnqueueAll(Empty, [a, b], alloc) == Queue([a, b], [], 2)
  {
    var q1 := Enque(Empty, a, alloc).value;
    assert q1 == Queue([a], [], 1);
    var q2 := Enque(q1, b, alloc).value;
    assert [a] + [b] == [a, b];
    assert q2 == Queue([a, b], [], 2);
    assert [a, b][1..] == [b];
    assert [b][1..] == [];
    assert EnqueueAll(q1, [b], alloc) == EnqueueAll(q2, [], alloc);
  }
}

=== FILE: device.dfy ===
/** The device operations the network backend installs in `struct wif`:
    hardware address, frame transmission and the channel, rate and monitor
    commands, all built on `net_send`, `net_get_nopacket` and `net_cmd`. */
module Device {
  import opened Bytes
  import opened Faults
  import opened Transport
  import opened Framing
  import opened FrameQueue
  import opened Demux

  /** `sizeof(struct tx_info)`; osdep.h is not part of this model. */
  const TxInfoSize: nat := 4

  const MacSize: nat := 6

  /** What `net_get_mac` hands back: -1, a status from a NET_RC reply (its
      return value), or the address (return value 0). */
  datatype MacReply = MacFailed | MacStatus(value: int) | Address(mac: seq<byte>)

  /** The `int` that `net_get_mac` returns. A caller cannot tell a failed
      send from a NET_RC status of -1, nor an address from a NET_RC status
      of 0, after which `mac` is left unwritten. */
  function MacReturnCode(r: MacReply): (c: int)
    ensures c == -1 <==> r.MacFailed? || (r.MacStatus? && r.value == -1)
    ensures c == 0 <==> r.Address? || (r.MacStatus? && r.value == 0)
  {
    match r
    case MacFailed => -1
    case MacStatus(v) => v
    case Address(_) => 0
  }

  const MacRequest: Message := Message(NetGetMac, [])

  /** `net_get_mac`: send NET_GET_MAC, wait for the reply with a 6-byte
      buffer; NET_RC yields its status, NET_MAC must carry exactly 6 bytes,
      any other type aborts. `stale` is the buffer's prior content. */
  function GetMac(conn: Conn, env: SendEnv, alloc: nat -> bool, stale: seq<byte>)
    : (r: Outcome<(MacReply, Conn)>)
    requires |stale| == MacSize
    ensures !SendSucceeds(MacRequest, env) ==>
      r.Done? && r.value.0 == MacFailed
      && r.value.1.queue == conn.queue && r.value.1.input == conn.input
    ensures SendSucceeds(MacRequest, env) && r.Done? ==>
      r.value.1.output == conn.output + Encode(MacRequest)
    ensures r.Done? && r.value.0.Address? ==> |r.value.0.mac| == MacSize
    ensures Valid(conn.queue) && r.Done? ==> Valid(r.value.1.queue)
  {
    var sent := Send(MacRequest, env);
    var out := conn.output + sent.wire;
    if sent.rc != 0 then Done((MacFailed, conn.(output := out)))
    else
      match GetNoPacket(conn.queue, conn.input, MacSize, alloc)
      case Pending => Pending
      case Abort(f) => Abort(f)
      case Done((reply, q, rest)) =>
        var after := Conn(q, rest, out);
        if reply.kind == NetRc then Done((MacStatus(StatusOf(reply.payload, stale)), after))
        else if reply.kind != NetMac then Abort(UnexpectedType)
        else if |reply.payload| != MacSize then Abort(BadReplySize)
        else Done((Address(reply.payload), after))
  }

  /** A NET_MAC reply of 6 bytes gives the address; a shorter one aborts. */
  lemma GetMacReply(conn: Conn, env: SendEnv, alloc: nat -> bool, stale: seq<byte>,
                    ms: seq<Message>, mac: seq<byte>, more: seq<byte>)
    requires |stale| == MacSize && SendSucceeds(MacRequest, env)
    requires AllInterim(ms) && |mac| <= MacSize
    requires Delivered(conn.input) == Encoding(ms) + Encode(Message(NetMac, mac)) + more
    ensures var r := GetMac(conn, env, alloc, stale);
      if |mac| == MacSize then
        r.Done? && r.value.0 == Address(mac)
        && r.value.1.queue == EnqueueAll(conn.queue, Packets(ms), alloc)
      else r == Abort(BadReplySize)
  {
    DemuxSpec(conn.queue, conn.input, MacSize, alloc, ms, Message(NetMac, mac), more);
  }

  /** Any other reply aborts: one longer than the 6-byte buffer, one of a
      type other than NET_RC and NET_MAC, and a NET_MAC of the wrong size. */
  lemma GetMacRejects(conn: Conn, env: SendEnv, alloc: nat -> bool, stale: seq<byte>,
                      ms: seq<Message>, m: Message, more: seq<byte>)
    requires |stale| == MacSize && SendSucceeds(MacRequest, env) && AllInterim(ms)
    requires Sendable(m) && IsReply(m) && |m.payload| <= BufSize
    requires m.kind != NetRc && (m.kind != NetMac || |m.payload| != MacSize)
    requires Delivered(conn.input) == Encoding(ms) + Encode(m) + more
    ensures GetMac(conn, env, alloc, stale)
         == Abort(if |m.payload| > MacSize then ReplyTooLarge
                  else if m.kind != NetMac then UnexpectedType
                  else BadReplySize)
  {
    DemuxSpec(conn.queue, conn.input, MacSize, alloc, ms, m, more);
  }

  /** A 4-byte NET_RC reply to NET_GET_MAC is returned as its big-endian
      status, after the data frames before it were queued in order. */
  lemma GetMacStatus(conn: Conn, env: SendEnv, alloc: nat -> bool, stale: seq<byte>,
                     ms: seq<Message>, v: nat, more: seq<byte>)
    requires |stale| == MacSize && SendSucceeds(MacRequest, env)
    requires AllInterim(ms) && v < Two32
    requires Delivered(conn.input) == Encoding(ms) + Encode(Message(NetRc, BigEndian(v, 4))) + more
    ensures var r := GetMac(conn, env, alloc, stale);
      r.Done? && r.value.0 == MacStatus(Int32(v))
      && MacReturnCode(r.value.0) == Int32(v)
      && r.value.1.queue == EnqueueAll(conn.queue, Packets(ms), alloc)
      && Delivered(r.value.1.input) == more
  {
    Pow256Four();
    var p := BigEndian(v, 4);
    DemuxSpec(conn.queue, conn.input, MacSize, alloc, ms, Message(NetRc, p), more);
    assert p[..4] == p;
  }

  /** A NET_RC 0 reply to NET_GET_MAC makes `net_get_mac` return 0, as for
      success, although no address was delivered. */
  lemma GetMacZeroStatus(conn: Conn, env: SendEnv, alloc: nat -> bool, stale: seq<byte>,
                         ms: seq<Message>, more: seq<byte>)
    requires |stale| == MacSize && SendSucceeds(MacRequest, env)
    requires AllInterim(ms)
    requires Delivered(conn.input) == Encoding(ms) + Encode(Message(NetRc, BigEndian(0, 4))) + more
    ensures var r := GetMac(conn, env, alloc, stale);
      r.Done? && MacReturnCode(r.value.0) == 0 && !r.value.0.Address?
  {
    GetMacStatus(conn, env, alloc, stale, ms, 0, more);
    assert Int32(0) == 0;
  }

  /** Against a server answering 02:00:00:00:00:01 the address is returned,
      and a 5-byte answer is refused. */
  lemma GetMacScenario(conn: Conn, env: SendEnv, alloc: nat -> bool, stale: seq<byte>)
    requires |stale| == MacSize && SendSucceeds(MacRequest, env)
    ensures var mac: seq<byte> := [2, 0, 0, 0, 0, 1];
      Delivered(conn.input) == Encode(Message(NetMac, mac)) ==>
      GetMac(conn, env, alloc, stale).Done?
      && MacReturnCode(GetMac(conn, env, alloc, stale).value.0) == 0
      && GetMac(conn, env, alloc, stale).value.0 == Address(mac)
    ensures Delivered(conn.input) == Encode(Message(NetMac, [2, 0, 0, 0, 0])) ==>
      GetMac(conn, env, alloc, stale) == Abort(BadReplySize)
  {
    var mac: seq<byte> := [2, 0, 0, 0, 0, 1];
    if Delivered(conn.input) == Encode(Message(NetMac, mac)) {
      assert Delivered(conn.input) == Encoding([]) + Encode(Message(NetMac, mac)) + [];
      GetMacReply(conn, env, alloc, stale, [], mac, []);
    }
    var short: seq<byte> := [2, 0, 0, 0, 0];
    if Delivered(conn.input) == Encode(Message(NetMac, short)) {
      assert Delivered(conn.input) == Encoding([]) + Encode(Message(NetMac, short)) + [];
      GetMacReply(conn, env, alloc, stale, [], short, []);
    }
  }

  /** The tx_info bytes `net_write` sends: the caller's, or zeros. */
  function TxHeader(ti: Option<seq<byte>>): (h: seq<byte>)
    requires ti.Some? ==> |ti.value| == TxInfoSize
    ensures |h| == TxInfoSize
    ensures ti.Some? ==> h == ti.value
    ensures ti.None? ==> forall i :: 0 <= i < TxInfoSize ==> h[i] == 0
  {
    if ti.Some? then ti.value else Zeros(TxInfoSize)
  }

  function WriteRequest(ti: Option<seq<byte>>, frame: seq<byte>): Message
    requires ti.Some? ==> |ti.value| == TxInfoSize
    requires TxInfoSize + |frame| <= BufSize
  {
    Message(NetWrite, TxHeader(ti) + frame)
  }

  /** `net_write`: NET_WRITE carrying the tx_info (or zeros) and the frame;
      the reply's status is returned. */
  function Write(conn: Conn, ti: Option<seq<byte>>, frame: seq<byte>, env: SendEnv,
                 alloc: nat -> bool): (r: Outcome<(int, Conn)>)
    requires ti.Some? ==> |ti.value| == TxInfoSize
    requires TxInfoSize + |frame| <= BufSize
    ensures SendSucceeds(WriteRequest(ti, frame), env) && r.Done? ==>
      r.value.1.output == conn.output + Encode(WriteRequest(ti, frame))
    ensures !SendSucceeds(WriteRequest(ti, frame), env) ==> r.Done? && r.value.0 == -1
  {
    Cmd(conn, NetWrite, TxHeader(ti) + frame, env, alloc)
  }

  /** The frame sent by `net_write` is what a server decodes: its tx_info
      part, then the link-layer bytes. */
  lemma WriteRequestDecodes(ti: Option<seq<byte>>, frame: seq<byte>, s: Stream, more: seq<byte>)
    requires ti.Some? ==> |ti.value| == TxInfoSize
    requires TxInfoSize + |frame| <= BufSize
    requires Delivered(s) == Encode(WriteRequest(ti, frame)) + more
    ensures Get(s, BufSize).Done? && Get(s, BufSize).value.0.Fetched?
    ensures var p := Get(s, BufSize).value.0.msg.payload;
      |p| == TxInfoSize + |frame| && p[..TxInfoSize] == TxHeader(ti) && p[TxInfoSize..] == frame
  {
    GetDecodes(s, WriteRequest(ti, frame), BufSize, more);
    var p := TxHeader(ti) + frame;
    assert p[..TxInfoSize] == TxHeader(ti) && p[TxInfoSize..] == frame;
  }

  /** The 4-byte argument of the set commands: `htonl` of the value. */
  function Arg(x: int): (a: seq<byte>)
    ensures |a| == 4
    ensures InInt32(x) ==> Int32(FromBigEndian(a)) == x
  {
    Pow256Four();
    Int32OfUint32(x);
    BigEndian(Uint32(x), 4)
  }

  /** `net_set_channel`. */
  function SetChannel(conn: Conn, chan: int, env: SendEnv, alloc: nat -> bool)
    : (r: Outcome<(int, Conn)>)
    ensures SendSucceeds(Message(NetSetChan, Arg(chan)), env) && r.Done? ==>
      r.value.1.output == conn.output + Encode(Message(NetSetChan, Arg(chan)))
    ensures !SendSucceeds(Message(NetSetChan, Arg(chan)), env) ==> r.Done? && r.value.0 == -1
  {
    Cmd(conn, NetSetChan, Arg(chan), env, alloc)
  }

  /** `net_get_channel`. */
  function GetChannel(conn: Conn, env: SendEnv, alloc: nat -> bool)
    : (r: Outcome<(int, Conn)>)
    ensures SendSucceeds(Message(NetGetChan, []), env) && r.Done? ==>
      r.value.1.output == conn.output + Encode(Message(NetGetChan, []))
    ensures !SendSucceeds(Message(NetGetChan, []), env) ==> r.Done? && r.value.0 == -1
  {
    Cmd(conn, NetGetChan, [], env, alloc)
  }

  /** `net_set_rate`. */
  function SetRate(conn: Conn, rate: int, env: SendEnv, alloc: nat -> bool)
    : (r: Outcome<(int, Conn)>)
    ensures SendSucceeds(Message(NetSetRate, Arg(rate)), env) && r.Done? ==>
      r.value.1.output == conn.output + Encode(Message(NetSetRate, Arg(rate)))
    ensures !SendSucceeds(Message(NetSetRate, Arg(rate)), env) ==> r.Done? && r.value.0 == -1
  {
    Cmd(conn, NetSetRate, Arg(rate), env, alloc)
  }

  /** `net_get_rate`. */
  function GetRate(conn: Conn, env: SendEnv, alloc: nat -> bool)
    : (r: Outcome<(int, Conn)>)
    ensures SendSucceeds(Message(NetGetRate, []), env) && r.Done? ==>
      r.value.1.output == conn.output + Encode(Message(NetGetRate, []))
    ensures !SendSucceeds(Message(NetGetRate, []), env) ==> r.Done? && r.value.0 == -1
  {
    Cmd(conn, NetGetRate, [], env, alloc)
  }

  /** `net_get_monitor`. */
  function GetMonitor(conn: Conn, env: SendEnv, alloc: nat -> bool)
    : (r: Outcome<(int, Conn)>)
    ensures SendSucceeds(Message(NetGetMonitor, []), env) && r.Done? ==>
      r.value.1.output == conn.output + Encode(Message(NetGetMonitor, []))
    ensures !SendSucceeds(Message(NetGetMonitor, []), env) ==> r.Done? && r.value.0 == -1
  {
    Cmd(conn, NetGetMonitor, [], env, alloc)
  }

  /** Setting channel 6 against a server that answers NET_RC 0 returns 0,
      and the server receives the value 6. */
  lemma SetChannelScenario(conn: Conn, env: SendEnv, alloc: nat -> bool, s: Stream)
    requires SendSucceeds(Message(NetSetChan, Arg(6)), env)
    requires Delivered(conn.input) == Encode(Message(NetRc, Arg(0)))
    requires Delivered(s) == Encode(Message(NetSetChan, Arg(6)))
    ensures var r := SetChannel(conn, 6, env, alloc); r.Done? && r.value.0 == 0
    ensures var g := Get(s, 4);
      g.Done? && g.value.0 == Fetched(Message(NetSetChan, Arg(6)))
      && FromBigEndian(g.value.0.msg.payload) == 6
  {
    Pow256Four();
    assert Arg(0) == BigEndian(0, 4);
    assert Delivered(conn.input) == Encoding([]) + Encode(Message(NetRc, BigEndian(0, 4))) + [];
    CmdReply(conn, NetSetChan, Arg(6), env, alloc, [], 0, []);
    assert Delivered(s) == Encode(Message(NetSetChan, Arg(6))) + [];
    GetDecodes(s, Message(NetSetChan, Arg(6)), 4, []);
  }
}

=== FILE: faults.dfy ===
/** Result shapes shared by every layer of the network client, and the
    assertions of the client that can stop the process. */
module Faults {

  datatype Option<+T> = None | Some(value: T)

  /** One constructor per `assert` of the client that input can make fail. */
  datatype Fault =
    | LengthExceedsCapacity  // net_get: declared payload length above the caller's capacity
    | FrameTooLarge          // net_enque: frame larger than a queue slot
    | ReplyTooLarge          // net_get_nopacket: message longer than the caller's buffer
    | UnexpectedType         // net_cmd, net_read, net_get_mac: message of the wrong type
    | BadReplySize           // net_cmd, net_get_mac: reply payload of the wrong size
    | QueuedFrameTooLarge    // queue_get: queued frame larger than the caller's buffer
    | ShortFrame             // net_read: frame not longer than its rx_info header
    | HostTooLong            // get_ip_port: address part longer than 15 characters

  /** What one operation comes to: it returns a value, the process aborts on a
      failed assertion, or the modelled input runs out while the operation is
      still waiting for data (the source would block, or spin, in `read`). */
  datatype Outcome<+T> = Done(value: T) | Abort(fault: Fault) | Pending
}

=== FILE: framing.dfy ===
/** The wire format of the client: a header carrying the message type and
    payload length, followed by the payload (`net_send` and `net_get`). */
module Framing {
  import opened Bytes
  import opened Faults
  import opened Transport

  // Message types. network.h is not part of this model: these are the codes
  // of the protocol. The proofs use only that they are distinct and positive,
  // except the example lemma `TypeNotByteSwapped`, which uses NET_RC = 1.
  const NetRc: int := 1
  const NetGetChan: int := 2
  const NetSetChan: int := 3
  const NetWrite: int := 4
  const NetPacket: int := 5
  const NetGetMac: int := 6
  const NetMac: int := 7
  const NetGetMonitor: int := 8
  const NetGetRate: int := 9
  const NetSetRate: int := 10

  // Layout of `struct net_hdr`: a 4-byte type field stored in host order,
  // then the 4-byte length in network order, with no padding between them.
  const TypeWidth: nat := 4
  const LenWidth: nat := 4
  const HeaderSize: nat := TypeWidth + LenWidth

  /** Size of the stack and queue buffers (`unsigned char buf[2048]`). */
  const BufSize: nat := 2048

  /** The type field is not byte-swapped, so it is stored in the host's byte
      order; the host is taken to be little-endian. */
  function HostOrder(v: nat): (b: seq<byte>)
    requires v < Two32
    ensures |b| == TypeWidth
    ensures FromHostOrder(b) == v
  {
    Pow256Four();
    LittleEndian(v, TypeWidth)
  }

  function FromHostOrder(b: seq<byte>): (v: nat)
    requires |b| == TypeWidth
    ensures v < Two32
  {
    Pow256Four();
    FromLittleEndian(b)
  }

  datatype Message = Message(kind: int, payload: seq<byte>)

  /** A message `net_send` can frame: its type fits a C `int` and so does its length. */
  predicate Sendable(m: Message)
  {
    InInt32(m.kind) && |m.payload| < Two31
  }

  /** The header with `kind` stored as given and `len` in network order;
      decoding it gives back the type (as a 32-bit value) and the length. */
  function Header(kind: int, len: nat): (h: seq<byte>)
    requires len < Two32
    ensures |h| == HeaderSize
    ensures HeaderFields(h) == (Int32(Uint32(kind)), len)
  {
    Pow256Four();
    var typeField := HostOrder(Uint32(kind));
    var lenField := BigEndian(len, LenWidth);
    var h := typeField + lenField;
    assert h[..TypeWidth] == typeField;
    assert h[TypeWidth..] == lenField;
    h
  }

  /** The type (as the C `int` that `net_get` returns) and the declared length. */
  function HeaderFields(h: seq<byte>): (f: (int, nat))
    requires |h| == HeaderSize
    ensures InInt32(f.0) && f.1 < Two32
  {
    Pow256Four();
    (Int32(FromHostOrder(h[..TypeWidth])), FromBigEndian(h[TypeWidth..]))
  }

  /** The buffer `net_send` builds: header, then the payload. */
  function Encode(m: Message): (b: seq<byte>)
    requires |m.payload| < Two32
    ensures |b| == HeaderSize + |m.payload|
  {
    Header(m.kind, |m.payload|) + m.payload
  }

  /** On a little-endian host the type goes out least significant byte first,
      unlike the length. */
  lemma TypeNotByteSwapped()
    ensures Header(NetRc, 1)[..TypeWidth] == [1, 0, 0, 0]
    ensures Header(NetRc, 1)[TypeWidth..] == [0, 0, 0, 1]
  {
    Pow256Four();
  }

  // ---------------------------------------------------------------- sending

  /** What the environment does to one `net_send`: whether `malloc` gave the
      buffer, whether `select` reported the socket writable in time, and
      what the single `send` returned. */
  datatype SendEnv = SendEnv(buffered: bool, writable: bool, accepted: int)

  /** The C return value and the bytes that actually reached the wire. */
  datatype Sent = Sent(rc: int, wire: seq<byte>)

  function Clamp(x: int, hi: nat): (c: nat)
    ensures c <= hi
  {
    if x < 0 then 0 else if x > hi then hi else x
  }

  predicate SendSucceeds(m: Message, env: SendEnv)
  {
    env.buffered && env.writable && env.accepted == HeaderSize + |m.payload|
  }

  /** `net_send`: 0 exactly when the buffer was built, the socket was writable
      and one `send` took the whole frame; -1 otherwise, with no retry of a
      partial write. Whatever reaches the wire is a prefix of the frame. */
  function Send(m: Message, env: SendEnv): (r: Sent)
    requires |m.payload| < Two31
    ensures r.rc == 0 <==> SendSucceeds(m, env)
    ensures r.rc != 0 ==> r.rc == -1
    ensures r.rc == 0 ==> r.wire == Encode(m)
    ensures r.wire <= Encode(m)
    ensures !env.buffered || !env.writable ==> r.wire == []
  {
    var buffer := Encode(m);
    if !env.buffered || !env.writable then Sent(-1, [])
    else if env.accepted != |buffer| then Sent(-1, buffer[..Clamp(env.accepted, |buffer|)])
    else Sent(0, buffer)
  }

  // -------------------------------------------------------------- receiving

  /** `net_get`'s result: -1, or a message (its type may itself be -1 or 0). */
  datatype Fetch = FetchFailed | Fetched(msg: Message)

  /** The `int` that `net_get` returns. */
  function Code(f: Fetch): (c: int)
    ensures c == -1 <==> f.FetchFailed? || f.msg.kind == -1
    ensures f.Fetched? ==> c == f.msg.kind
  {
    if f.FetchFailed? then -1 else f.msg.kind
  }

  /** The capacity test as the source writes it: the declared length is kept
      in an `int`, so one of 2^31 or more turns negative and passes. */
  function AcceptsLengthAsWritten(field: nat, cap: nat): (ok: bool)
    requires field < Two32
    ensures ok <==> field <= cap || Two31 <= field
  {
    Int32(field) <= cap
  }

  /** The capacity test as intended: the unsigned declared length fits. */
  predicate AcceptsLength(field: nat, cap: nat)
  {
    field <= cap
  }

  /** A declared length of 2^31 passes the source's check against a
      2048-byte buffer although it exceeds it. */
  lemma SignedLengthPassesCheck(field: nat, cap: nat)
    requires Two31 <= field < Two32
    ensures AcceptsLengthAsWritten(field, cap)
    ensures !AcceptsLength(field, cap) <== cap < Two31
  {
  }

  /** `net_get` with `*len == cap`: read the header, abort when the declared
      length exceeds the capacity, then read exactly that many payload bytes
      (none when it is 0). A failing read yields -1. */
  function Get(s: Stream, cap: nat): (r: Outcome<(Fetch, Stream)>)
    ensures r.Done? ==> Size(r.value.1) < Size(s)
    ensures r.Done? && r.value.0.Fetched? ==>
      |r.value.0.msg.payload| <= cap && InInt32(r.value.0.msg.kind)
    ensures r.Abort? ==> r.fault == LengthExceedsCapacity
  {
    match ReadExact(s, HeaderSize)
    case Starved => Pending
    case Broken(rest) => Done((FetchFailed, rest))
    case Filled(h, rest) =>
      var (kind, plen) := HeaderFields(h);
      if !AcceptsLength(plen, cap) then Abort(LengthExceedsCapacity)
      else if plen == 0 then Done((Fetched(Message(kind, [])), rest))
      else
        match ReadExact(rest, plen)
        case Starved => Pending
        case Broken(rest') => Done((FetchFailed, rest'))
        case Filled(p, rest') => Done((Fetched(Message(kind, p)), rest'))
  }

  /** `net_get` in terms of the delivered bytes `D`: too few for a header, or
      for the declared payload, and it fails at the first failing read (or
      waits); a declared length above `cap` aborts; otherwise it returns the
      header's type and the next `len` bytes, consuming exactly those. */
  lemma {:induction false} GetSpec(s: Stream, cap: nat)
    ensures var r := Get(s, cap);
      var d := Delivered(s);
      if |d| < HeaderSize then
        (if AfterFailure(s).Some? then r == Done((FetchFailed, AfterFailure(s).value)) else r == Pending)
      else
        var (kind, len) := HeaderFields(d[..HeaderSize]);
        if len > cap then r == Abort(LengthExceedsCapacity)
        else if |d| < HeaderSize + len then
          (if AfterFailure(s).Some? then r == Done((FetchFailed, AfterFailure(s).value)) else r == Pending)
        else
          r.Done? && r.value.0 == Fetched(Message(kind, d[HeaderSize..HeaderSize + len]))
          && Delivered(r.value.1) == d[HeaderSize + len..]
          && AfterFailure(r.value.1) == AfterFailure(s)
  {
    var d := Delivered(s);
    ReadExactSpec(s, HeaderSize);
    if |d| >= HeaderSize {
      var hr := ReadExact(s, HeaderSize);
      var (kind, len) := HeaderFields(d[..HeaderSize]);
      if len <= cap {
        ReadExactSpec(hr.rest, len);
        if len == 0 {
          assert d[HeaderSize..HeaderSize + len] == [];
        } else if |d| >= HeaderSize + len {
          assert d[HeaderSize..][..len] == d[HeaderSize..HeaderSize + len];
          assert d[HeaderSize..][len..] == d[HeaderSize + len..];
        }
      }
    }
  }

  /** Framing round trip: a stream delivering the frame of `m` yields `m`
      when its payload fits the capacity, and aborts otherwise. */
  lemma GetDecodes(s: Stream, m: Message, cap: nat, more: seq<byte>)
    requires Sendable(m)
    requires Delivered(s) == Encode(m) + more
    ensures var r := Get(s, cap);
      if |m.payload| <= cap then
        r.Done? && r.value.0 == Fetched(m)
        && Delivered(r.value.1) == more && AfterFailure(r.value.1) == AfterFailure(s)
      else r == Abort(LengthExceedsCapacity)
  {
    GetSpec(s, cap);
    var d := Delivered(s);
    var h := Header(m.kind, |m.payload|);
    assert d[..HeaderSize] == h;
    Int32OfUint32(m.kind);
    assert d[HeaderSize..HeaderSize + |m.payload|] == m.payload;
    assert d[HeaderSize + |m.payload|..] == more;
  }

  /** A successful `net_send` puts on the wire exactly what `net_get` decodes
      back into the same message. */
  lemma SendThenGet(m: Message, env: SendEnv, s: Stream, cap: nat, more: seq<byte>)
    requires Sendable(m) && |m.payload| <= cap
    requires Send(m, env).rc == 0
    requires Delivered(s) == Send(m, env).wire + more
    ensures Get(s, cap).Done? && Get(s, cap).value.0 == Fetched(m)
  {
    GetDecodes(s, m, cap, more);
  }
}

=== FILE: queue.dfy ===
/** The out-of-band frame queue of `struct priv_net`: the live queue, the
    free list of recycled slots and the allocation counter `pn_queue_len`. */
module FrameQueue {
  import opened Faults
  import opened Bytes

  const QueueMax: nat := 666

  /** Capacity of one slot (`q_buf[2048]`). */
  const SlotSize: nat := 2048

  /** `live` holds the frames of `pn_queue`, oldest first; `free` holds the
      stale contents of the slots on `pn_queue_free`, head first; `attempts`
      is `pn_queue_len`, the number of times a new slot was asked for. */
  datatype Queue = Queue(live: seq<seq<byte>>, free: seq<seq<byte>>, attempts: nat)

  /** The state after `net_open`: it makes both lists empty; the counter is
      zero because the private state that `wi_alloc` returns is zeroed
      (`wi_alloc` is not part of this model). */
  const Empty: Queue := Queue([], [], 0)

  /** Slots in existence: they are never freed, only moved between lists. */
  function Slots(q: Queue): nat
  {
    |q.live| + |q.free|
  }

  /** Every slot came from a counted attempt, at most QUEUE_MAX + 1 attempts
      can succeed, and every queued frame fits its slot. */
  predicate Valid(q: Queue)
  {
    && Slots(q) <= q.attempts
    && Slots(q) <= QueueMax + 1
    && forall i :: 0 <= i < |q.live| ==> |q.live[i]| <= SlotSize
  }

  lemma EmptyIsValid()
    ensures Valid(Empty)
  {
  }

  /** Whether `queue_get_slot` yields a slot: a free one, or a new one while the
      pre-increment counter is at most QUEUE_MAX and `malloc` succeeds.
      `alloc(k)` is the outcome of the `malloc` made when the counter reads k. */
  predicate Admits(q: Queue, alloc: nat -> bool)
  {
    |q.free| > 0 || (q.attempts <= QueueMax && alloc(q.attempts))
  }

  /** `queue_get_slot`: reuse the head of the free list if there is one;
      otherwise bump the counter and allocate only if its old value was at
      most QUEUE_MAX. */
  function GetSlot(q: Queue, alloc: nat -> bool): (r: (Option<seq<byte>>, Queue))
    ensures r.0.Some? <==> Admits(q, alloc)
    ensures |q.free| > 0 ==> r.1 == q.(free := q.free[1..]) && r.0 == Some(q.free[0])
    ensures |q.free| == 0 ==> r.1 == q.(attempts := q.attempts + 1)
    ensures Valid(q) ==>
      && Slots(r.1) + (if r.0.Some? then 1 else 0) <= r.1.attempts
      && Slots(r.1) + (if r.0.Some? then 1 else 0) <= QueueMax + 1
  {
    if |q.free| > 0 then (Some(q.free[0]), q.(free := q.free[1..]))
    else if q.attempts > QueueMax then (None, q.(attempts := q.attempts + 1))
    else if alloc(q.attempts) then (Some([]), q.(attempts := q.attempts + 1))
    else (None, q.(attempts := q.attempts + 1))
  }

  /** `net_enque`: take a slot, then abort if the frame is larger than a
      slot, else append it at the tail. Without a slot the frame is dropped,
      leaving both lists as they were (the counter has still moved). */
  function Enque(q: Queue, frame: seq<byte>, alloc: nat -> bool): (r: Outcome<Queue>)
    ensures Admits(q, alloc) && |frame| > SlotSize ==> r == Abort(FrameTooLarge)
    ensures Admits(q, alloc) && |frame| <= SlotSize ==>
      r.Done? && r.value.live == q.live + [frame]
    ensures !Admits(q, alloc) ==>
      r == Done(q.(attempts := q.attempts + 1))
    ensures Valid(q) && r.Done? ==> Valid(r.value)
  {
    var (slot, q') := GetSlot(q, alloc);
    if slot.None? then Done(q')
    else if |frame| > SlotSize then Abort(FrameTooLarge)
    else Done(q'.(live := q'.live + [frame]))
  }

  /** `queue_get`'s result: the length it returns, the bytes it copies out
      and the queue afterwards. */
  datatype Dequeued = Dequeued(len: nat, data: seq<byte>, queue: Queue)

  /** `queue_get`: an empty queue returns 0 and changes nothing; otherwise the
      head frame is copied out (abort if it exceeds `cap`), its slot moves to
      the tail of the free list and its length is returned. */
  function QueueGet(q: Queue, cap: nat): (r: Outcome<Dequeued>)
    ensures |q.live| == 0 ==> r == Done(Dequeued(0, [], q))
    ensures |q.live| > 0 && |q.live[0]| > cap ==> r == Abort(QueuedFrameTooLarge)
    ensures |q.live| > 0 && |q.live[0]| <= cap ==>
      r.Done? && r.value.data == q.live[0] && r.value.len == |q.live[0]|
      && r.value.queue.live == q.live[1..]
      && r.value.queue.free == q.free + [q.live[0]]
      && r.value.queue.attempts == q.attempts
    ensures Valid(q) && r.Done? ==> Valid(r.value.queue)
  {
    if |q.live| == 0 then Done(Dequeued(0, [], q))
    else
      var head := q.live[0];
      if |head| > cap then Abort(QueuedFrameTooLarge)
      else Done(Dequeued(|head|, head, Queue(q.live[1..], q.free + [head], q.attempts)))
  }

  // ------------------------------------------------------- derived behaviour

  predicate AllFit(fs: seq<seq<byte>>)
  {
    forall i :: 0 <= i < |fs| ==> |fs[i]| <= SlotSize
  }

  /** The queue after `net_enque` of each of `fs` in turn. */
  function EnqueueAll(q: Queue, fs: seq<seq<byte>>, alloc: nat -> bool): (r: Queue)
    requires AllFit(fs)
    ensures q.live <= r.live && |r.live| <= |q.live| + |fs|
    ensures Valid(q) ==> Valid(r)
    decreases |fs|
  {
    if |fs| == 0 then q
    else EnqueueAll(Enque(q, fs[0], alloc).value, fs[1..], alloc)
  }

  /** Every frame of `fs` finds a slot when its turn comes. */
  predicate NoDrops(q: Queue, fs: seq<seq<byte>>, alloc: nat -> bool)
    requires AllFit(fs)
    decreases |fs|
  {
    |fs| == 0 || (Admits(q, alloc) && NoDrops(Enque(q, fs[0], alloc).value, fs[1..], alloc))
  }

  /** Frames that are not dropped are appended in the order they came. */
  lemma {:induction false} EnqueueAllAppends(q: Queue, fs: seq<seq<byte>>, alloc: nat -> bool)
    requires AllFit(fs) && NoDrops(q, fs, alloc)
    ensures EnqueueAll(q, fs, alloc).live == q.live + fs
    decreases |fs|
  {
    if |fs| > 0 {
      var q' := Enque(q, fs[0], alloc).value;
      EnqueueAllAppends(q', fs[1..], alloc);
      assert q.live + [fs[0]] + fs[1..] == q.live + fs;
    }
  }

  /** Slots on the free list are used before anything is allocated, so a free
      list at least as long as `fs` drops nothing. */
  lemma {:induction false} FreeSlotsPreventDrops(q: Queue, fs: seq<seq<byte>>, alloc: nat -> bool)
    requires AllFit(fs) && |q.free| >= |fs|
    ensures NoDrops(q, fs, alloc)
    decreases |fs|
  {
    if |fs| > 0 {
      var q' := Enque(q, fs[0], alloc).value;
      assert q'.free == q.free[1..];
      FreeSlotsPreventDrops(q', fs[1..], alloc);
    }
  }

  /** The frames `queue_get` hands out, one call after another, until the
      live queue is empty. */
  function Drain(q: Queue): (out: seq<seq<byte>>)
    requires Valid(q)
    ensures |out| == |q.live|
    ensures |q.live| > 0 ==> out[0] == q.live[0]
    decreases |q.live|
  {
    if |q.live| == 0 then []
    else
      var r := QueueGet(q, SlotSize);
      [r.value.data] + Drain(r.value.queue)
  }

  /** `queue_get` hands out the live frames oldest first. */
  lemma {:induction false} DrainIsLive(q: Queue)
    requires Valid(q)
    ensures Drain(q) == q.live
    decreases |q.live|
  {
    if |q.live| > 0 {
      var r := QueueGet(q, SlotSize);
      DrainIsLive(r.value.queue);
      assert [q.live[0]] + q.live[1..] == q.live;
    }
  }

  /** FIFO: frames enqueued without drops come out in enqueue order, after
      those already waiting. */
  lemma FifoOrder(q: Queue, fs: seq<seq<byte>>, alloc: nat -> bool)
    requires Valid(q) && AllFit(fs) && NoDrops(q, fs, alloc)
    ensures Drain(EnqueueAll(q, fs, alloc)) == q.live + fs
  {
    EnqueueAllAppends(q, fs, alloc);
    DrainIsLive(EnqueueAll(q, fs, alloc));
  }

  function Min(a: nat, b: nat): nat
  {
    if a < b then a else b
  }

  /** With every `malloc` succeeding and no dequeues, the queue keeps the
      first QUEUE_MAX + 1 - |live| of further frames and drops the rest. */
  lemma {:induction false} FillWithoutFree(q: Queue, fs: seq<seq<byte>>, alloc: nat -> bool)
    requires AllFit(fs)
    requires forall k :: alloc(k)
    requires q.free == [] && |q.live| == Min(q.attempts, QueueMax + 1)
    ensures EnqueueAll(q, fs, alloc).live == q.live + fs[..Min(|fs|, QueueMax + 1 - |q.live|)]
    decreases |fs|
  {
    if |fs| > 0 {
      var q' := Enque(q, fs[0], alloc).value;
      FillWithoutFree(q', fs[1..], alloc);
      if q.attempts <= QueueMax {
        assert q'.live == q.live + [fs[0]];
        var k := Min(|fs| - 1, QueueMax + 1 - |q'.live|);
        assert k + 1 == Min(|fs|, QueueMax + 1 - |q.live|);
        KeepOneMore(q.live, fs, k);
      } else {
        assert q'.live == q.live;
        assert Min(|fs|, QueueMax + 1 - |q.live|) == 0;
      }
    }
  }

  /** Keeping the head of `fs` and then k more frames keeps its first k + 1. */
  lemma KeepOneMore(kept: seq<seq<byte>>, fs: seq<seq<byte>>, k: nat)
    requires k < |fs|
    ensures kept + [fs[0]] + fs[1..][..k] == kept + fs[..k + 1]
  {
    assert fs[..k + 1] == [fs[0]] + fs[1..][..k];
  }

  /** The pool holds QUEUE_MAX + 1 frames, not QUEUE_MAX: starting from the
      fresh state with every `malloc` succeeding, n enqueues keep
      min(n, QUEUE_MAX + 1) frames. */
  lemma PoolHoldsOneExtra(fs: seq<seq<byte>>, alloc: nat -> bool)
    requires AllFit(fs)
    requires forall k :: alloc(k)
    ensures EnqueueAll(Empty, fs, alloc).live == fs[..Min(|fs|, QueueMax + 1)]
    ensures |fs| > QueueMax ==> |EnqueueAll(Empty, fs, alloc).live| == QueueMax + 1
  {
    FillWithoutFree(Empty, fs, alloc);
  }
}

=== FILE: transport.dfy ===
/** The receive side of the socket, as the sequence of results its `read`
    calls return, and the read-until-`len` loop of `net_read_exact`. */
module Transport {
  import opened Bytes
  import opened Faults

  /** One `read` call's result. `Chunk(d)` with `d` non-empty is what the
      kernel had ready (a read asking for fewer bytes takes a prefix and leaves
      the rest for the next read); `Chunk([])` is a read returning 0 (peer
      closed); `Error` is a read returning -1. */
  datatype Event = Chunk(data: seq<byte>) | Error

  /** The events still to come. When it is exhausted the next read would
      block: an operation that gets there is `Pending`. */
  type Stream = seq<Event>

  /** A read that returns at most 0 (error or end of stream). */
  predicate Fails(e: Event)
  {
    e.Error? || |e.data| == 0
  }

  function EventSize(e: Event): nat
  {
    if e.Error? then 1 else 1 + |e.data|
  }

  /** Termination measure: every successful or failing read lowers it. */
  function Size(s: Stream): nat
  {
    if |s| == 0 then 0 else EventSize(s[0]) + Size(s[1..])
  }

  lemma SizeCons(e: Event, s: Stream)
    ensures Size([e] + s) == EventSize(e) + Size(s)
  {
    assert ([e] + s)[1..] == s;
  }

  /** The bytes the stream delivers before its first failing read. */
  function Delivered(s: Stream): seq<byte>
  {
    if |s| == 0 || Fails(s[0]) then [] else s[0].data + Delivered(s[1..])
  }

  /** What follows the first failing read, if there is one. */
  function AfterFailure(s: Stream): Option<Stream>
  {
    if |s| == 0 then None
    else if Fails(s[0]) then Some(s[1..])
    else AfterFailure(s[1..])
  }

  /** `Filled` is a return of 0 with the bytes read; `Broken` is a return of
      -1, with the stream after the failing read; `Starved` means the stream
      ran out first. */
  datatype ReadResult = Filled(bytes: seq<byte>, rest: Stream) | Broken(rest: Stream) | Starved

  function Prepend(p: seq<byte>, r: ReadResult): ReadResult
  {
    if r.Filled? then Filled(p + r.bytes, r.rest) else r
  }

  /** `net_read_exact`: read until exactly `n` bytes have arrived; any read
      returning 0 or -1 ends it with -1. */
  function ReadExact(s: Stream, n: nat): (r: ReadResult)
    ensures r.Filled? ==> |r.bytes| == n && Size(r.rest) + n <= Size(s)
    ensures r.Broken? ==> Size(r.rest) < Size(s)
    decreases n
  {
    if n == 0 then Filled([], s)
    else if |s| == 0 then Starved
    else if Fails(s[0]) then Broken(s[1..])
    else
      var d := s[0].data;
      if n < |d| then
        SizeCons(Chunk(d[n..]), s[1..]);
        Filled(d[..n], [Chunk(d[n..])] + s[1..])
      else
        Prepend(d, ReadExact(s[1..], n - |d|))
  }

  /** The loop of `net_read_exact` computes the same result as the recursive
      definition. */
  method ReadExactLoop(s: Stream, n: nat) returns (r: ReadResult)
    ensures r == ReadExact(s, n)
  {
    var cur := s;
    var left: nat := n;
    var got: seq<byte> := [];
    assert Prepend(got, ReadExact(cur, left)) == ReadExact(s, n);
    while left > 0
      invariant Prepend(got, ReadExact(cur, left)) == ReadExact(s, n)
      decreases left
    {
      if |cur| == 0 {
        return Starved;
      }
      if Fails(cur[0]) {
        return Broken(cur[1..]);
      }
      var d := cur[0].data;
      if left < |d| {
        assert got + d[..left] + [] == got + d[..left];
        got := got + d[..left];
        cur := [Chunk(d[left..])] + cur[1..];
        left := 0;
      } else {
        var tail := ReadExact(cur[1..], left - |d|);
        assert tail.Filled? ==> got + (d + tail.bytes) == (got + d) + tail.bytes;
        got := got + d;
        cur := cur[1..];
        left := left - |d|;
      }
    }
    assert got + [] == got;
    return Filled(got, cur);
  }

  /** What `net_read_exact` does depends only on the bytes delivered before
      the first failing read, not on how they were split into reads: it
      succeeds exactly when `n` of them are there, consuming exactly those
      `n`; otherwise it fails at the first failing read, or waits. */
  lemma {:induction false} ReadExactSpec(s: Stream, n: nat)
    ensures var r := ReadExact(s, n);
      if n <= |Delivered(s)| then
        r.Filled? && r.bytes == Delivered(s)[..n]
        && Delivered(r.rest) == Delivered(s)[n..]
        && AfterFailure(r.rest) == AfterFailure(s)
      else if AfterFailure(s).Some? then r == Broken(AfterFailure(s).value)
      else r == Starved
    decreases n
  {
    if n == 0 {
    } else if |s| == 0 || Fails(s[0]) {
    } else {
      var d := s[0].data;
      var rest := Delivered(s[1..]);
      assert Delivered(s) == d + rest;
      if n < |d| {
        var t := [Chunk(d[n..])] + s[1..];
        assert t[0] == Chunk(d[n..]) && t[1..] == s[1..];
        assert Delivered(t) == d[n..] + rest;
        assert (d + rest)[n..] == d[n..] + rest;
        assert (d + rest)[..n] == d[..n];
      } else {
        ReadExactSpec(s[1..], n - |d|);
        if n <= |Delivered(s)| {
          var r := ReadExact(s[1..], n - |d|);
          assert d + rest[..n - |d|] == (d + rest)[..n];
          assert rest[n - |d|..] == (d + rest)[n..];
        }
      }
    }
  }
}
